=== FILE: README.md ===
# Pig, modelled in Dafny

A model of the two-player dice game Pig as implemented in `pig.py`. A player
keeps rolling a six-sided die and adds each roll to their turn score. Rolling
a 1 (a bust) loses the turn score and ends the turn. Holding banks the turn
score into the player's total. The first player whose total plus turn score
reaches 100 wins. A player is a person (`Player`, who types `r` or `h`) or the
computer (`ComputerPlayer`, which rolls while its turn score is below
`min(25, 100 - (total + turn score))`). Turns pass round a FIFO queue of
players.

The model is functional. A player is an immutable record, and each mutator
of the class is a function returning the changed record. The rotation is a
sequence plus the current player. The game state is the rotation plus the two
flags `_active_turn` and `_end_game`. The outside world comes in as two input
streams, read only when needed: the answers people type and the die values
(each in 1..6).

| file | module | source |
|---|---|---|
| `wrappers.dfy` | `Wrappers` | `Option`, for "no answer" |
| `rotation.dfy` | `Rotation` | `Players` (the turn queue) |
| `player.dfy` | `PlayerState` | `Player`, `ComputerPlayer`, `str.strip()` |
| `step.dfy` | `Step` | `Game._play`, the game state and its invariant |
| `leaderboard.dfy` | `Leaderboard` | the stable descending sorts of `_game_over` and `_accounce_winner` |
| `game.dfy` | `Game` | `Game.__init__`, `Game.start`, `Game._turn`, whole-game properties |

Main results:

- **Rotation.** `get_next_player` turns the seating one place. After N
  calls, with N players, the rotation is exactly the starting one, and each
  seat was current once, in seating order. `get_players` always lists every
  player exactly once.
- **One decision (`_play`).** A 1 costs the turn score, keeps the total,
  counts the roll and ends the turn. A 2 to 6 short of 100 adds to the turn
  score. A 2 to 6 reaching 100 banks everything and ends the game. A hold
  banks the turn score and ends the turn. Any other answer changes nothing.
- **Whole game.** Every reachable state satisfies `Step.Valid`:
  - while the game runs, nobody has reached 100;
  - waiting players have no points at risk;
  - between turns, nobody has points at risk.

  No total or roll count ever goes down. Turns go round the table in
  seat order, one per player per round, and the players stay the starting
  seating, turned by some number of places. The turn loop stops where the
  decisions it reads lead, and a game stops short of a winner only when
  input runs out. A whole game is the run of single game steps
  (`Game.GameStep`: one decision while a turn runs, the hand-over to the
  next player between turns) from the opening table to the first point where
  no step can follow, and it reports how many steps it took. The game ends
  exactly when somebody reaches 100, and then that player is the only one at or above
  100 and heads the leaderboard.
- **Leaderboard.** It is sorted by total, highest first, and holds every
  player once. Players with equal totals keep their table order.
- **Computer rule.** It rolls exactly when its turn score is below 25 and
  its total plus twice its turn score is below 100. It never answers
  anything but `r` or `h`.

The computer's limit counts the points at risk on both sides: pig.py:242
compares the turn score against `100 - (total + turn score)`, not against
the points the total alone still lacks. The model keeps that comparison.

Apart from the input streams and the recursion limit (see "## Left out"),
the one place where the model departs from the code is the winner
announcement. pig.py:337-340 announces the player with the highest last
roll, which can be the loser (see "## Findings"). The model's finished game
carries the corrected announcement, the player who reached 100. The
announcement as written is modelled too, as `Game.AnnouncedAsWritten`.

## Model

| member | source | states |
|---|---|---|
| `Rotation.MembersListsTable` | pig.py:64-75 | `get_players` lists the waiting players in queue order and then the current player, so everyone at the table appears once, the current player last. |
| `Rotation.FromQueue` | pig.py:28-37 | There is no rotation exactly when the queue is empty (`Queue.get` would block). Otherwise the head of the queue is current and the table is the queue turned one place. |
| `Rotation.Advance` | pig.py:50-62 | The new current player is the first in seating order. The table becomes the old table turned one place, so the relative order of the players is preserved. |
| `Rotation.AdvanceNRotates` | pig.py:50-62 | `n` calls of `get_next_player`, up to one full cycle, turn the table by `n` places. |
| `Rotation.FullCycle` | pig.py:50-62 | N calls, with N players, give back exactly the starting rotation: the same current player and the same queue. |
| `Rotation.CycleVisitsInOrder` | pig.py:50-62 | The `n`-th call of a cycle makes the `n`-th seat current, so each player is current once per cycle, in seating order. |
| `Rotation.AdvanceNAdd` | pig.py:50-62 | `a` calls of `get_next_player` followed by `b` more land where `a + b` calls do. |
| `Rotation.AdvanceNPeriodic` | pig.py:50-62 | Any number of calls of `get_next_player` lands on the same rotation as some number of calls below one full cycle. |
| `Rotation.AdvanceNKeepsPlayers` | pig.py:64-75 | However many times `get_next_player` is called, `get_players` holds the same players, each the same number of times. |
| `PlayerState.Strip` | pig.py:101 | The name keeps the stretch between the leading and trailing whitespace. That stretch neither starts nor ends with a whitespace character, and everything cut away is whitespace. |
| `PlayerState.StripIdempotent` | pig.py:101 | Stripping a stripped name changes nothing. |
| `PlayerState.NewPlayer` | pig.py:93-105 | A new player has a stripped name and the given kind, and every counter starts at 0. |
| `PlayerState.UpdateTotalRolls` | pig.py:162-168 | One more roll is counted, and no other field of the player changes. |
| `PlayerState.UpdateTurnScore` | pig.py:170-179 | The roll is added to the turn score, and no other field changes. |
| `PlayerState.UpdateLastRoll` | pig.py:181-190 | The last roll becomes the given value, and no other field changes. |
| `PlayerState.ResetTurnStats` | pig.py:192-198 | The turn score drops to 0, and no other field changes. |
| `PlayerState.CommitScore` | pig.py:199-206 | The turn score is added to the total. The turn score itself is kept, and no other field changes. |
| `PlayerState.CommitOrder` | pig.py:192-206 | Commit-then-reset moves the turn score into the total. Reset-then-commit, the order of the bust path, banks nothing. Both leave the turn score at 0. |
| `PlayerState.ComputerAction` | pig.py:233-244 | The computer answers only `r` or `h`. It answers `r` exactly when its turn score is below 25 and its total plus twice its turn score is below 100. |
| `PlayerState.RequestAction` | pig.py:208-244 | A person's answer is the next input token, whatever it is; with no token left there is no answer. The computer reads no input, and its answer is the computer rule of `ComputerAction`. |
| `Step.Play` | pig.py:376-432 | Gives the effect on the current player of a bust, a roll short of 100, a roll reaching 100, a hold and any other answer. The waiting players never change, and neither do the current player's name and kind. A running turn from a valid state leads to a valid state. |
| `Step.NextPlay` | pig.py:384-392 | One decision with its inputs. There is no decision exactly when a person has no answer left, or when the answer is a roll and no die value is left. Otherwise the new state is `Play` of the answer read and, on a roll, the next die value. A person's answer uses up exactly one token. A die value is used up only on a roll, and exactly one. A decision reads input unless the computer holds, and a computer hold ends the turn. |
| `Game.PlayTurn` | pig.py:455-458 | The loop stops only when the turn is over or the game has ended, or when the next decision finds its input missing. It changes only the current player, never downwards, keeps states valid, and consumes at least one input when the player has a decision to make. |
| `Game.PlayTurnFollowsDecisions` | pig.py:455-458 | The loop stops where its decisions lead. Its final state and unread input are what its decisions, made one after another from the inputs, reach. Every state before the last one still had an open turn in a running game. |
| `Game.OpenTurn` | pig.py:444-449 | The turn opens for the next player, or for the same player on the first call. The opened turn is active and valid, and its first decision reads input. |
| `Game.TurnEndsBetween` | pig.py:455-464 | A turn that ends without ending the game leaves everyone with no points at risk and short of 100. |
| `Game.Leaders` | pig.py:354-366 | The leaderboard of `_game_over` has one row per player, each the player's name, total and roll count. It is sorted by total, highest first, and keeps equal totals in table order. |
| `Leaderboard.StandingOf` | pig.py:354-355 | A player's leaderboard row is their name, total and roll count. |
| `Leaderboard.Standings` | pig.py:354-355 | The rows come one per player, in `get_players` order. |
| `Leaderboard.AnnouncementOf` | pig.py:337 | A player's announcement tuple is their name, last roll and total. |
| `Leaderboard.Announcements` | pig.py:337-338 | The announcement tuples come one per player, in `get_players` order. |
| `Game.Turn` | pig.py:434-467 | Every state the game reaches is valid. The game finishes exactly when its end flag is set. A finished game carries the corrected announcement (`Game.Announced`) and the leaderboard. A game stops short of a winner only when the next decision finds its input missing, and then its unread input is what remains of the input it was given. |
| `Game.TurnFollowsPlay` | pig.py:434-467 | The game plays exactly its steps. From the opened turn, the recorded number of game steps (decisions and hand-overs, one at a time) leads to the outcome's state and unread input, and no further game step is possible there. So no turn gains or loses points, and no input is skipped, between one decision and the next. |
| `Game.TurnsInSeatingOrder` | pig.py:434-467 | The `i`-th turn goes to the player that `get_next_player` makes current after `i` calls, or `i + 1` calls when the first turn already hands over. The final table is that seating, with every seat at a later moment. |
| `Game.NewGame` | pig.py:310-326 | There is no game exactly when the queue is empty. Otherwise the head of the queue is current, a turn is open and the game is on. |
| `Game.Roster` | pig.py:624-635 | The queue holds one fresh player per seat, in seat order, each with no points. |
| `Game.RunGame` | pig.py:328-332 | A game from fresh players exists exactly when there are seats. It ends in a valid state, and it finishes exactly when someone reached 100. Otherwise the next decision found its input missing. |
| `Game.GameFollowsPlay` | pig.py:328-467 | A whole game from fresh seats is the run of game steps from the opening table, as many as the outcome records, and it ends where no game step can follow. |
| `Game.GameTurnOrder` | pig.py:328-467 | In a whole game, the first round of turns goes to the seats in seat order. After that the order repeats, with the number of seats as its period. |
| `Game.TurnProgressed` | pig.py:455-458 | Seat by seat, a turn leaves every player the same person, with total and roll count no lower. |
| `Game.TurnNeverLowersTotals` | pig.py:434-467 | From any turn to the end of the game, the table is the starting table turned by some number of places. Every player keeps their name and kind, and no total or roll count goes down. |
| `Game.GameNeverLowersTotals` | pig.py:434-467 | At the end of a whole game started from fresh seats, the table is the seating turned by some number of places, and every seat holds the same person, with the same name and kind. |
| `Game.WinnerTopsLeaderboard` | pig.py:345-374 | When a game finishes, the current player is the only one at or above 100, and nobody has points at risk. The leaderboard is sorted by total, highest first, holds every player once, keeps equal totals in table order, and is headed by the winner. |
| `Game.GameWinnerLeads` | pig.py:463-467 | A finished whole game ends with the current player at or above 100. The corrected announcement names that player, and the leaderboard puts them first. |
| `Game.AnnouncedAsWritten` | pig.py:334-340 | The announcement as written belongs to some player and carries the highest last roll at the table. |
| `Game.AnnouncementNamesLoser` | pig.py:337-340 | In a valid end state, the announcement as written names the player who did not win. |
| `Game.Announced` | pig.py:334-343 | The intended announcement is one of the announcement tuples at the table, the current player's. In a valid end state it names a player at or above 100 whose total is higher than every waiting player's. |
| `Leaderboard.SortByKey` | pig.py:364-366 | The sort puts the largest key first and keeps the same rows. Rows with equal keys stay in their original order, as Python's stable sort keeps them. |
| `Leaderboard.SoleLeaderFirst` | pig.py:364-366 | A row whose key is strictly larger than every other row's heads the sorted table. |

## Left out

- `TimedGame` and `TimedGameProxy` (pig.py:470-588): they depend on the wall clock, and only the untimed game is modelled.
- `main` and `PlayerFactory` (pig.py:247-267, 591-641): these parse the command line and choose classes. `Game.RunGame` takes the seats (name and kind) directly.
- `Die` (pig.py:270-292): the seeded random generator is replaced by an input stream of values in 1..6.
- `Player.request_action`'s `input()` (pig.py:217) is replaced by an input stream of answers.
- Every `print` (narration, leaderboard borders and the announcement text) is left out. The model keeps the order and contents of the leaderboard. The announced tuple is the corrected one (see the `Game.Turn` line below); the tuple pig.py:466 picks is `Game.AnnouncedAsWritten`.
- The getters (pig.py:39-48, 107-160) are field reads of the records.
- In the source, a person's `input()` (pig.py:217) waits at the keyboard for an answer. If standard input is closed, it raises `EOFError`, and the game ends with that exception. The die never runs out. In the model, running out of either stream stops the game with `OutOfInput`. That outcome exists only in the model.
- `_turn` calls itself once per turn (pig.py:464), and Python does not eliminate tail calls. A game longer than the interpreter's recursion limit (about 1000 nested calls by default) therefore ends in `RecursionError`. An example is two people who answer `h` on every turn. The model's `Game.Turn` goes on for as long as input lasts.
- Game.Turn: a finished game carries the corrected announcement `Game.Announced`, not the last-roll announcement that pig.py:466 makes. The announcement as written is `Game.AnnouncedAsWritten`. See "## Findings".
- Game.GameWinnerLeads: "announces the player who reached 100" holds for the corrected announcement only. As written, pig.py:337-340 can announce another player (`Game.AnnouncementNamesLoser`).
- Game.Turn: it requires a state between turns: game on, nobody with points at risk, nobody at 100. This holds for every state from which the source calls `_turn`. The source's recursion becomes recursion on the amount of input left.

## Findings

| source | as written | input that shows it | evidently intended | confidence | as-written member | corrected member |
|---|---|---|---|---|---|---|
| pig.py:337-340 | The untimed winner announcement sorts all players by their last roll, highest first, and announces the first one. | Ann and Bob both human, Ann first. Ann rolls a 6 and holds. Bob rolls sixteen 6s and then a 4, reaching 100. Bob's last roll is 4 and Ann's is 6, so Ann is congratulated as the winner. A tie in last rolls also names the waiting player, who is listed before the current one. | Announce the player whose roll reached 100, who is the current player. | high; not executed | `Game.AnnouncementNamesLoser` (on `Game.AnnouncedAsWritten`) | `Game.Announced` |

=== FILE: game.dfy ===
/** The game loop of pig.py: the `Game` constructor and `Game._turn`, which
    runs turns until someone reaches 100 and then ranks the players. */
module Game {
  import opened Wrappers
  import opened PlayerState
  import opened Rotation
  import opened Step
  import opened Leaderboard

  /** How a turn loop stops, after how many decisions, and with what input
      left: the turn is over (or the game is); or the next decision waits for
      input that is not there. */
  datatype TurnResult =
    | TurnOver(state: GameState, rest: Inputs, decisions: nat)
    | TurnStalled(state: GameState, rest: Inputs, decisions: nat)

  /** How a game stops: someone reached 100, the winner is announced and the
      leaderboard is shown; or the next decision waits for input that is not
      there. Both carry the input left unread, the number of game steps
      played (`GameStep`) and the player of every turn opened, in order. */
  datatype Outcome =
    | Finished(state: GameState, rest: Inputs, steps: nat, turns: seq<string>, winner: Entry, leaderboard: seq<Entry>)
    | OutOfInput(state: GameState, rest: Inputs, steps: nat, turns: seq<string>)

  /** The turn loop is still going: a turn is open and the game is on. */
  predicate Running(g: GameState)
  {
    g.activeTurn && !g.endGame
  }

  /** `n` decisions in a row from `g`, each reading its own input. None
      when one of them finds its input missing. */
  function Steps(g: GameState, inp: Inputs, n: nat): Option<(GameState, Inputs)>
  {
    Iterate(DecisionMove, (g, inp), n)
  }

  /** `NextPlay` on a pair of state and input. */
  function DecisionMove(at: (GameState, Inputs)): Option<(GameState, Inputs)>
  {
    NextPlay(at.0, at.1)
  }

  /** After a first decision, the later decisions are those made from its
      result. */
  lemma StepsUnfold(g: GameState, inp: Inputs, next: GameState, rest: Inputs, n: nat)
    requires NextPlay(g, inp) == Some((next, rest)) && 0 < n
    ensures Steps(g, inp, n) == Steps(next, rest, n - 1)
  {
    assert DecisionMove((g, inp)) == Some((next, rest));
  }

  /** The `while` loop of `_turn`: the current player keeps deciding while
      the turn is active and the game has not ended. */
  function PlayTurn(g: GameState, inp: Inputs): (r: TurnResult)
    ensures r.state.players.queue == g.players.queue
    ensures Later(g.players.current, r.state.players.current)
    ensures Valid(g) ==> Valid(r.state)
    ensures Remains(r.rest, inp)
    // it stops only when the turn or the game is over, or when the next
    // decision finds its input missing
    ensures r.TurnOver? ==> !Running(r.state)
    ensures r.TurnStalled? ==> Running(r.state) && NextPlay(r.state, r.rest).None?
    // a turn that has to make a decision reads some input
    ensures r.TurnOver? && g.activeTurn && !g.endGame && ReadsInput(g.players.current) ==>
              Size(r.rest) < Size(inp)
    decreases Size(inp)
  {
    if !Running(g) then TurnOver(g, inp, 0)
    else
      var step := NextPlay(g, inp);
      if step.None? then TurnStalled(g, inp, 0)
      else
        var (next, rest) := step.value;
        if Running(next) then
          var later := PlayTurn(next, rest);
          later.(decisions := later.decisions + 1)
        else
          TurnOver(next, rest, 1)
  }

  /** `r` is where the decisions from `g` lead: `r.decisions` of them
      reach `r.state` with `r.rest` unread, each made from a state that was
      still running. */
  predicate Traces(g: GameState, inp: Inputs, r: TurnResult)
  {
    && Steps(g, inp, r.decisions) == Some((r.state, r.rest))
    && forall i :: 0 <= i < r.decisions ==> Steps(g, inp, i).Some? && Running(Steps(g, inp, i).value.0)
  }

  /** A first decision from a running state, followed by a trace from its
      result, is a trace one decision longer. */
  lemma TracesExtend(g: GameState, inp: Inputs, next: GameState, rest: Inputs, later: TurnResult)
    requires Running(g) && NextPlay(g, inp) == Some((next, rest)) && Traces(next, rest, later)
    ensures Traces(g, inp, later.(decisions := later.decisions + 1))
  {
    var r := later.(decisions := later.decisions + 1);
    StepsUnfold(g, inp, next, rest, r.decisions);
    forall i | 0 <= i < r.decisions
      ensures Steps(g, inp, i).Some? && Running(Steps(g, inp, i).value.0)
    {
      if i > 0 {
        StepsUnfold(g, inp, next, rest, i);
        assert Steps(next, rest, i - 1).Some? && Running(Steps(next, rest, i - 1).value.0);
      } else {
        assert Steps(g, inp, i) == Some((g, inp));
      }
    }
  }

  /** The turn loop stops where its decisions lead. */
  lemma {:induction false} PlayTurnFollowsDecisions(g: GameState, inp: Inputs)
    ensures Traces(g, inp, PlayTurn(g, inp))
    decreases Size(inp)
  {
    var r := PlayTurn(g, inp);
    if !Running(g) || NextPlay(g, inp).None? {
      assert r.decisions == 0 && r.state == g && r.rest == inp;
    } else {
      var (next, rest) := NextPlay(g, inp).value;
      if Running(next) {
        PlayTurnFollowsDecisions(next, rest);
        TracesExtend(g, inp, next, rest, PlayTurn(next, rest));
      } else {
        assert r == TurnOver(next, rest, 1);
        TracesExtend(g, inp, next, rest, TurnOver(next, rest, 0));
      }
    }
  }

  /** Between two turns: the game is on, nobody has points at risk and
      nobody has reached 100. */
  predicate Between(g: GameState)
  {
    && !g.endGame
    && forall p :: p in Members(g.players) ==> p.turnScore == 0 && p.totalScore < WinningScore
  }

  /** `_accounce_winner` as written: the announcement tuples of all players
      sorted on the LAST ROLL, and the first one announced as the winner. */
  function AnnouncedAsWritten(g: GameState): (e: Entry)
    ensures e in Announcements(Members(g.players))
    ensures forall p :: p in Members(g.players) ==> p.lastRoll <= e.key
  {
    var rows := SortByKey(Announcements(Members(g.players)));
    assert rows[0] in multiset(rows);
    forall p | p in Members(g.players)
      ensures p.lastRoll <= rows[0].key
    {
      var i :| 0 <= i < |Members(g.players)| && Members(g.players)[i] == p;
      assert AnnouncementOf(p) in multiset(rows);
    }
    rows[0]
  }

  /** The announcement as intended: the player whose roll ended the game,
      which is the current player. At the end of a game it is the one
      player at or above 100, with the highest total of all. */
  function Announced(g: GameState): (e: Entry)
    ensures e in Announcements(Members(g.players)) && e.name == g.players.current.name
    ensures Valid(g) && g.endGame ==>
              e.extra >= WinningScore
              && forall p :: p in g.players.queue ==> p.totalScore < e.extra
  {
    var line := Members(g.players);
    assert line[|line| - 1] == g.players.current;
    assert Announcements(line)[|line| - 1] == AnnouncementOf(g.players.current);
    AnnouncementOf(g.players.current)
  }

  /** The announcement as written can name a player who did not win. Ann
      rolled a 6 and held; Bob then rolled sixteen 6s and a 4 and reached
      100. Bob's last roll, 4, is lower than Ann's, so Ann is announced. */
  lemma AnnouncementNamesLoser()
    ensures var loser := Player("Ann", Human, 6, 0, 1, 6);
            var winner := Player("Bob", Human, 100, 0, 17, 4);
            var g := GameState(Players([loser], winner), false, true);
            && Valid(g)
            && AnnouncedAsWritten(g).name == loser.name
            && Announced(g).name == winner.name
  {
    var loser := Player("Ann", Human, 6, 0, 1, 6);
    var winner := Player("Bob", Human, 100, 0, 17, 4);
    var g := GameState(Players([loser], winner), false, true);
    var rows := Announcements(Members(g.players));
    assert rows == [AnnouncementOf(loser), AnnouncementOf(winner)];
    assert AnnouncedAsWritten(g).key == 6;
  }

  /** The table `_game_over` prints for the players of `g`. */
  function Leaders(g: GameState): (r: seq<Entry>)
    ensures |r| == |Members(g.players)| && SortedDesc(r)
    ensures multiset(r) == multiset(Standings(Members(g.players)))
    ensures forall p :: p in Members(g.players) ==> StandingOf(p) in r
    ensures forall k: nat :: WithKey(r, k) == WithKey(Standings(Members(g.players)), k)
  {
    var line := Members(g.players);
    forall p | p in line
      ensures StandingOf(p) in multiset(Standings(line))
    {
      var i :| 0 <= i < |line| && line[i] == p;
      assert Standings(line)[i] == StandingOf(p);
    }
    SortByKey(Standings(Members(g.players)))
  }

  /** The opening of `_turn`: take the next player if asked to and set the
      turn active. The player whose turn it is has no points at risk and
      has not reached 100, so their first decision reads input. */
  function OpenTurn(g: GameState, nextPlayer: bool): (s: GameState)
    requires Between(g)
    ensures s.activeTurn && !s.endGame && Valid(s) && ReadsInput(s.players.current)
    ensures nextPlayer ==> Members(s.players) == Rotate(Members(g.players), 1)
    ensures !nextPlayer ==> s.players == g.players
  {
    var players := if nextPlayer then Advance(g.players) else g.players;
    RotatePermutes(Members(g.players), 1);
    assert forall p :: p in Members(players) ==> p in Members(g.players) by {
      assert multiset(Members(players)) == multiset(Members(g.players));
    }
    assert Members(players)[|players.queue|] == players.current;
    g.(players := players, activeTurn := true)
  }

  /** A turn that ended without ending the game leaves everyone between
      turns. */
  lemma TurnEndsBetween(over: GameState)
    requires Valid(over) && !over.endGame && !over.activeTurn
    ensures Between(over)
  {
    forall p | p in Members(over.players)
      ensures p.turnScore == 0 && p.totalScore < WinningScore
    {
      if p in over.players.queue {
        var i :| 0 <= i < |over.players.queue| && over.players.queue[i] == p;
      }
    }
  }

  /** `_turn(next_player)`: open a turn, play it out, and then either hand
      over to the next player or, once the game has ended, produce the
      leaderboard. */
  /** The outcome of a turn that hands over after `decisions` decisions to
      turns ending in `later`: the same end, one hand-over and `opener`'s
      turn more. */
  function HandOver(opener: string, decisions: nat, later: Outcome): (r: Outcome)
    ensures r.Finished? == later.Finished?
    ensures r.state == later.state && r.rest == later.rest
    ensures r.steps == decisions + 1 + later.steps && r.turns == [opener] + later.turns
    ensures r.Finished? ==> r.winner == later.winner && r.leaderboard == later.leaderboard
  {
    match later
    case OutOfInput(final, unread, steps, turns) =>
      OutOfInput(final, unread, decisions + 1 + steps, [opener] + turns)
    case Finished(final, unread, steps, turns, winner, leaderboard) =>
      Finished(final, unread, decisions + 1 + steps, [opener] + turns, winner, leaderboard)
  }

  function Turn(g: GameState, inp: Inputs, nextPlayer: bool): (r: Outcome)
    requires Between(g)
    ensures Valid(r.state)
    // the game ends only when somebody reaches 100
    ensures r.Finished? <==> r.state.endGame
    ensures r.Finished? ==> r.winner == Announced(r.state) && r.leaderboard == Leaders(r.state)
    // the game stops short of a winner only when the next decision finds
    // its input missing
    ensures r.OutOfInput? ==> Remains(r.rest, inp) && Running(r.state) && NextPlay(r.state, r.rest).None?
    decreases Size(inp)
  {
    var start := OpenTurn(g, nextPlayer);
    var opener := start.players.current.name;
    match PlayTurn(start, inp)
    case TurnStalled(stalled, rest, decisions) => OutOfInput(stalled, rest, decisions, [opener])
    case TurnOver(over, rest, decisions) =>
      if !over.endGame then
        TurnEndsBetween(over);
        var later := Turn(over, rest, true);
        if later.OutOfInput? then
          RemainsTransitive(later.rest, rest, inp);
          HandOver(opener, decisions, later)
        else
          HandOver(opener, decisions, later)
      else
        Finished(over, rest, decisions, [opener], Announced(over), Leaders(over))
  }

  /** The `Game` constructor: the head of the queue is current, a turn is
      open and the game is on. An empty queue blocks, so there is no game. */
  function NewGame(q: seq<Player>): (r: Option<GameState>)
    ensures r.None? <==> q == []
    ensures r.Some? ==> r.value.players.current == q[0] && Members(r.value.players) == Rotate(q, 1)
    ensures r.Some? ==> r.value.activeTurn && !r.value.endGame
  {
    match FromQueue(q)
    case None => None
    case Some(players) => Some(GameState(players, true, false))
  }

  /** A seat at the table as `main` sets it up: a name and a player kind. */
  datatype Seat = Seat(name: string, kind: Kind)

  /** The queue `main` builds: one fresh player per seat, in seat order. */
  function Roster(seats: seq<Seat>): (q: seq<Player>)
    ensures |q| == |seats|
    ensures forall i :: 0 <= i < |seats| ==> q[i] == NewPlayer(seats[i].name, seats[i].kind)
    ensures forall i :: 0 <= i < |q| ==> q[i].turnScore == 0 && q[i].totalScore == 0
  {
    if seats == [] then [] else [NewPlayer(seats[0].name, seats[0].kind)] + Roster(seats[1..])
  }

  /** A whole game: fresh players queued in seat order, then `start`. No
      game without players. */
  function RunGame(seats: seq<Seat>, inp: Inputs): (r: Option<Outcome>)
    ensures r.None? <==> seats == []
    ensures r.Some? ==> Valid(r.value.state) && (r.value.Finished? <==> r.value.state.endGame)
    ensures r.Some? && r.value.OutOfInput? ==>
              Remains(r.value.rest, inp) && Running(r.value.state) && NextPlay(r.value.state, r.value.rest).None?
  {
    if seats == [] then None
    else
      FreshTableBetween(seats);
      Some(Turn(NewGame(Roster(seats)).value, inp, false))
  }

  /** Fresh players start between turns. */
  lemma {:induction false} FreshTableBetween(seats: seq<Seat>)
    requires seats != []
    ensures NewGame(Roster(seats)).Some? && Between(NewGame(Roster(seats)).value)
  {
    IdleQueueBetween(Roster(seats));
  }

  /** A queue of players without points at risk and short of 100 starts a
      game between turns. */
  lemma IdleQueueBetween(q: seq<Player>)
    requires q != []
    requires forall i :: 0 <= i < |q| ==> q[i].turnScore == 0 && q[i].totalScore < WinningScore
    ensures NewGame(q).Some? && Between(NewGame(q).value)
  {
    var g := NewGame(q).value;
    assert Members(g.players) == q[1..] + [q[0]];
    forall p | p in Members(g.players)
      ensures p.turnScore == 0 && p.totalScore < WinningScore
    {
      if p != q[0] {
        var i :| 0 <= i < |q| - 1 && q[1..][i] == p;
        assert q[i + 1] == p;
      }
    }
  }

  lemma ProgressedReflexive(a: seq<Player>)
    ensures Progressed(a, a)
  {
  }

  lemma ProgressedTransitive(a: seq<Player>, b: seq<Player>, c: seq<Player>)
    requires Progressed(a, b) && Progressed(b, c)
    ensures Progressed(a, c)
  {
  }

  /** Seat-by-seat progress survives turning both tables alike. */
  lemma ProgressedRotate(a: seq<Player>, b: seq<Player>, k: nat)
    requires Progressed(a, b) && k <= |a|
    ensures Progressed(Rotate(a, k), Rotate(b, k))
  {
    forall i | 0 <= i < |a|
      ensures Later(Rotate(a, k)[i], Rotate(b, k)[i])
    {
      RotateIndex(a, k, i);
      RotateIndex(b, k, i);
    }
  }

  /** Progress from `line` turned by `j` to `mid`, then from `mid` turned by
      `later` to `final`, is progress from `line` turned by the sum. */
  lemma ComposeProgress(line: seq<Player>, j: nat, mid: seq<Player>, later: nat, final: seq<Player>)
      returns (k: nat)
    requires j <= |line| && later < |mid|
    requires Progressed(Rotate(line, j), mid) && Progressed(Rotate(mid, later), final)
    ensures k < |line| && Progressed(Rotate(line, k), final)
  {
    var n := |line|;
    ProgressedRotate(Rotate(line, j), mid, later);
    RotateAdd(line, j, later);
    k := if j + later < n then j + later else j + later - n;
    if j + later == n {
      RotateFull(line);
    }
    assert Rotate(Rotate(line, j), later) == Rotate(line, k);
    ProgressedTransitive(Rotate(line, k), Rotate(mid, later), final);
  }

  /** A turn changes only the current seat, and only upwards. */
  lemma TurnProgressed(g: GameState, inp: Inputs)
    ensures Progressed(Members(g.players), Members(PlayTurn(g, inp).state.players))
  {
    var before := Members(g.players);
    var after := PlayTurn(g, inp).state;
    var line := Members(after.players);
    assert |line| == |before|;
    forall i | 0 <= i < |before|
      ensures Later(before[i], line[i])
    {
      if i < |g.players.queue| {
        assert before[i] == g.players.queue[i] && line[i] == after.players.queue[i];
      } else {
        assert before[i] == g.players.current && line[i] == after.players.current;
      }
    }
  }

  /** No total ever goes down and nobody joins, leaves or changes seat: from
      the start of a turn to the end of the game, the table is the starting
      table turned by `k` places, each player with a total and a roll count
      at least what they had. */
  lemma {:induction false} TurnNeverLowersTotals(g: GameState, inp: Inputs, nextPlayer: bool) returns (k: nat)
    requires Between(g)
    ensures k < |Members(g.players)|
    ensures Progressed(Rotate(Members(g.players), k), Members(Turn(g, inp, nextPlayer).state.players))
    decreases Size(inp)
  {
    var line := Members(g.players);
    var n := |line|;
    var start := OpenTurn(g, nextPlayer);
    var j: nat := if nextPlayer && 1 < n then 1 else 0;
    assert Members(start.players) == Rotate(line, j) by {
      RotateFull(line);
    }
    var turn := PlayTurn(start, inp);
    TurnProgressed(start, inp);
    var over := turn.state;
    if turn.TurnStalled? || over.endGame {
      assert Turn(g, inp, nextPlayer).state == over;
      k := j;
    } else {
      var rest := turn.rest;
      TurnEndsBetween(over);
      assert Turn(g, inp, nextPlayer).state == Turn(over, rest, true).state;
      var later := TurnNeverLowersTotals(over, rest, true);
      k := ComposeProgress(line, j, Members(over.players), later, Members(Turn(over, rest, true).state.players));
    }
  }

  /** Turning two tables alike keeps seat-by-seat progress, and the
      players who become current are the same people. */
  lemma {:induction false} ProgressedAdvanceN(a: Players<Player>, b: Players<Player>, m: nat)
    requires Progressed(Members(a), Members(b))
    ensures Progressed(Members(AdvanceN(a, m)), Members(AdvanceN(b, m)))
    ensures Later(AdvanceN(a, m).current, AdvanceN(b, m).current)
    decreases m
  {
    if m == 0 {
      assert Members(a)[|a.queue|] == a.current && Members(b)[|b.queue|] == b.current;
    } else {
      ProgressedAdvanceN(a, b, m - 1);
      var a', b' := AdvanceN(a, m - 1), AdvanceN(b, m - 1);
      ProgressedRotate(Members(a'), Members(b'), 1);
      assert Later(Members(a')[0], Members(b')[0]);
    }
  }

  /** The turns `turns` went round the table from `ps`: the `i`-th went to
      the player `get_next_player` makes current after `j + i` calls, and
      the final table is the table after the last of them, seat by seat at
      a later moment. */
  predicate GoesRound(ps: Players<Player>, j: nat, turns: seq<string>, final: Players<Player>)
  {
    && 1 <= |turns|
    && (forall i :: 0 <= i < |turns| ==> turns[i] == AdvanceN(ps, j + i).current.name)
    && Progressed(Members(AdvanceN(ps, j + |turns| - 1)), Members(final))
  }

  /** One turn, opened `j` places after `ps`, goes round. */
  lemma GoesRoundOne(ps: Players<Player>, j: nat, start: Players<Player>, final: Players<Player>)
    requires start == AdvanceN(ps, j) && Progressed(Members(start), Members(final))
    ensures GoesRound(ps, j, [start.current.name], final)
  {
  }

  /** A turn that took the table from `start`, `j` places after `ps`, to
      `over`, followed by turns that go round from `over`, go round from
      `ps` too. */
  lemma ComposeTurns(ps: Players<Player>, j: nat, start: Players<Player>, over: Players<Player>,
                     later: seq<string>, final: Players<Player>)
    requires start == AdvanceN(ps, j) && Progressed(Members(start), Members(over))
    requires GoesRound(over, 1, later, final)
    ensures GoesRound(ps, j, [start.current.name] + later, final)
  {
    var turns := [start.current.name] + later;
    forall i | 0 <= i < |turns|
      ensures turns[i] == AdvanceN(ps, j + i).current.name
    {
      if i > 0 {
        assert turns[i] == later[i - 1] == AdvanceN(over, i).current.name;
        ProgressedAdvanceN(start, over, i);
        AdvanceNAdd(ps, j, i);
      } else {
        ProgressedAdvanceN(start, over, 0);
      }
    }
    ProgressedAdvanceN(start, over, |later|);
    AdvanceNAdd(ps, j, |later|);
    ProgressedTransitive(Members(AdvanceN(ps, j + |later|)), Members(AdvanceN(over, |later|)), Members(final));
  }

  /** Turns pass round the table in seating order: the `i`-th turn from `g`
      goes to the player `get_next_player` makes current after `i` more
      calls (one more than that when `g` starts by handing over), and the
      final table is that seating, seat by seat at a later moment. */
  lemma {:induction false} TurnsInSeatingOrder(g: GameState, inp: Inputs, nextPlayer: bool)
    requires Between(g)
    ensures var r := Turn(g, inp, nextPlayer);
            GoesRound(g.players, if nextPlayer then 1 else 0, r.turns, r.state.players)
    decreases Size(inp)
  {
    var j := if nextPlayer then 1 else 0;
    var start := OpenTurn(g, nextPlayer);
    assert start.players == AdvanceN(g.players, j);
    var turn := PlayTurn(start, inp);
    TurnProgressed(start, inp);
    var r := Turn(g, inp, nextPlayer);
    if turn.TurnStalled? || turn.state.endGame {
      assert r.turns == [start.players.current.name] && r.state == turn.state;
      GoesRoundOne(g.players, j, start.players, turn.state.players);
    } else {
      var over, rest := turn.state, turn.rest;
      TurnEndsBetween(over);
      var later := Turn(over, rest, true);
      assert r.turns == [start.players.current.name] + later.turns && r.state == later.state;
      TurnsInSeatingOrder(over, rest, true);
      ComposeTurns(g.players, j, start.players, over.players, later.turns, later.state.players);
    }
  }

  /** At the end of a game the current player is the winner: the only one
      at or above 100, with nobody holding points at risk; the leaderboard
      lists every player once, highest total first, equal totals in table
      order, and the winner heads it. */
  lemma WinnerTopsLeaderboard(g: GameState, inp: Inputs, nextPlayer: bool)
    requires Between(g) && Turn(g, inp, nextPlayer).Finished?
    ensures var final := Turn(g, inp, nextPlayer).state;
            var winner := final.players.current;
            && winner.totalScore >= WinningScore && winner.turnScore == 0
            && (forall i :: 0 <= i < |final.players.queue| ==>
                  final.players.queue[i].totalScore < WinningScore && final.players.queue[i].turnScore == 0)
    ensures var r := Turn(g, inp, nextPlayer);
            var rows := Standings(Members(r.state.players));
            && |r.leaderboard| == |rows| && r.leaderboard[0] == StandingOf(r.state.players.current)
            && SortedDesc(r.leaderboard) && multiset(r.leaderboard) == multiset(rows)
            && (forall k: nat :: WithKey(r.leaderboard, k) == WithKey(rows, k))
  {
    var r := Turn(g, inp, nextPlayer);
    var line := Members(r.state.players);
    var rows := Standings(line);
    var w := |line| - 1;
    assert line[w] == r.state.players.current;
    forall j | 0 <= j < |rows| && j != w
      ensures rows[j].key < rows[w].key
    {
      assert line[j] == r.state.players.queue[j];
    }
    SoleLeaderFirst(rows, w);
  }

  /** A whole game from fresh players: the end table is the seating turned
      by some number of places, every player with a total and roll count at
      least where they started. */
  lemma {:induction false} GameNeverLowersTotals(seats: seq<Seat>, inp: Inputs)
    requires seats != []
    ensures exists k :: 0 <= k < |seats|
              && Progressed(Rotate(Roster(seats), k), Members(RunGame(seats, inp).value.state.players))
  {
    FreshTableBetween(seats);
    var q := Roster(seats);
    var final := Members(RunGame(seats, inp).value.state.players);
    assert final == Members(Turn(NewGame(q).value, inp, false).state.players);
    var k := QueueNeverLowersTotals(q, inp);
    assert Progressed(Rotate(q, k), final);
  }

  /** The same, for a game started from a queue `q`: returns the number of
      places the table ends up turned by. */
  lemma {:induction false} QueueNeverLowersTotals(q: seq<Player>, inp: Inputs) returns (m: nat)
    requires NewGame(q).Some? && Between(NewGame(q).value)
    ensures m < |q| && Progressed(Rotate(q, m), Members(Turn(NewGame(q).value, inp, false).state.players))
  {
    var g := NewGame(q).value;
    var final := Members(Turn(g, inp, false).state.players);
    var k := TurnNeverLowersTotals(g, inp, false);
    assert Members(g.players) == Rotate(q, 1);
    ProgressedReflexive(Members(g.players));
    m := ComposeProgress(q, 1, Members(g.players), k, final);
  }

  /** A whole game that finishes announces the winner, the only player at or
      above 100, and has them at the head of the leaderboard. */
  lemma {:induction false} GameWinnerLeads(seats: seq<Seat>, inp: Inputs)
    requires seats != [] && RunGame(seats, inp).value.Finished?
    ensures var r := RunGame(seats, inp).value;
            && r.state.players.current.totalScore >= WinningScore
            && r.winner.name == r.state.players.current.name
            && r.leaderboard[0] == StandingOf(r.state.players.current)
  {
    var g := NewGame(Roster(seats)).value;
    FreshTableBetween(seats);
    assert RunGame(seats, inp) == Some(Turn(g, inp, false));
    WinnerTopsLeaderboard(g, inp, false);
  }

  /** A whole game from fresh seats hands out turns round the table: the
      first round goes to the seats in seat order, and after that the order
      repeats with the number of seats as its period. */
  lemma {:induction false} GameTurnOrder(seats: seq<Seat>, inp: Inputs)
    requires seats != []
    ensures var turns := RunGame(seats, inp).value.turns;
            && 1 <= |turns|
            && (forall i :: 0 <= i < |turns| && i < |seats| ==> turns[i] == Strip(seats[i].name))
            && (forall i :: 0 <= i && i + |seats| < |turns| ==> turns[i + |seats|] == turns[i])
  {
    FreshTableBetween(seats);
    var q := Roster(seats);
    var g := NewGame(q).value;
    assert RunGame(seats, inp) == Some(Turn(g, inp, false));
    TurnsInSeatingOrder(g, inp, false);
    var turns := Turn(g, inp, false).turns;
    var n := |seats|;
    assert Members(g.players) == q[1..] + [q[0]];
    forall i | 0 <= i < |turns| && i < n
      ensures turns[i] == Strip(seats[i].name)
    {
      assert turns[i] == AdvanceN(g.players, i).current.name;
      if i > 0 {
        CycleVisitsInOrder(g.players, i);
        assert Members(g.players)[i - 1] == q[i];
      }
    }
    forall i | 0 <= i && i + n < |turns|
      ensures turns[i + n] == turns[i]
    {
      assert turns[i + n] == AdvanceN(g.players, n + i).current.name;
      AdvanceNAdd(g.players, n, i);
      FullCycle(g.players);
    }
  }

  /** One step of the whole game: a decision while a turn runs; between
      turns, the hand-over to the next player (`_turn(True)`); nothing once
      the game has ended or when the decision's input is missing. */
  function GameStep(g: GameState, inp: Inputs): Option<(GameState, Inputs)>
  {
    if Running(g) then NextPlay(g, inp)
    else if !g.endGame then Some((g.(players := Advance(g.players), activeTurn := true), inp))
    else None
  }

  /** `GameStep` on a pair of state and input. */
  function GameMove(at: (GameState, Inputs)): Option<(GameState, Inputs)>
  {
    GameStep(at.0, at.1)
  }

  /** `n` steps of `step` in a row from `s`; None once a step is impossible. */
  function Iterate<S>(step: S -> Option<S>, s: S, n: nat): Option<S>
    decreases n
  {
    if n == 0 then Some(s)
    else
      match step(s)
      case None => None
      case Some(t) => Iterate(step, t, n - 1)
  }

  /** `a` steps and then `b` more are `a + b` steps. */
  lemma {:induction false} IterateAdd<S>(step: S -> Option<S>, s: S, a: nat, b: nat, mid: S)
    requires Iterate(step, s, a) == Some(mid)
    ensures Iterate(step, s, a + b) == Iterate(step, mid, b)
    decreases a
  {
    if a > 0 {
      var t := step(s).value;
      IterateAdd(step, t, a - 1, b, mid);
    }
  }

  /** `d` steps to `mid`, one more to `next`, and `n` more to `final` are
      `d + 1 + n` steps to `final`. */
  lemma IterateCompose<S>(step: S -> Option<S>, s: S, d: nat, mid: S, next: S, n: nat, final: S)
    requires Iterate(step, s, d) == Some(mid) && step(mid) == Some(next) && Iterate(step, next, n) == Some(final)
    ensures Iterate(step, s, d + 1 + n) == Some(final)
  {
    IterateAdd(step, s, d, 1 + n, mid);
    assert Iterate(step, mid, 1 + n) == Iterate(step, next, n);
  }

  /** `n` game steps in a row. */
  function GameSteps(g: GameState, inp: Inputs, n: nat): Option<(GameState, Inputs)>
  {
    Iterate(GameMove, (g, inp), n)
  }

  /** `n` game steps from `g` reach `final` with `rest` unread, and no step
      can follow: the game has ended or waits for missing input. */
  predicate RunsTo(g: GameState, inp: Inputs, n: nat, final: GameState, rest: Inputs)
  {
    GameSteps(g, inp, n) == Some((final, rest)) && GameStep(final, rest).None?
  }

  /** After a first game step, the later steps are those taken from its
      result. */
  lemma GameStepsUnfold(g: GameState, inp: Inputs, next: GameState, rest: Inputs, n: nat)
    requires GameStep(g, inp) == Some((next, rest)) && 0 < n
    ensures GameSteps(g, inp, n) == GameSteps(next, rest, n - 1)
  {
    assert GameMove((g, inp)) == Some((next, rest));
  }

  /** Two step functions that agree at every state of a run make the same
      run. */
  lemma {:induction false} IterateAgree<S>(f: S -> Option<S>, h: S -> Option<S>, s: S, n: nat)
    requires forall i :: 0 <= i < n ==> Iterate(f, s, i).Some? && f(Iterate(f, s, i).value) == h(Iterate(f, s, i).value)
    ensures Iterate(h, s, n) == Iterate(f, s, n)
    decreases n
  {
    if n > 0 {
      assert Iterate(f, s, 0) == Some(s);
      if f(s).Some? {
        var t := f(s).value;
        forall i | 0 <= i < n - 1
          ensures Iterate(f, t, i).Some? && f(Iterate(f, t, i).value) == h(Iterate(f, t, i).value)
        {
          assert Iterate(f, s, i + 1) == Iterate(f, t, i);
        }
        IterateAgree(f, h, t, n - 1);
      }
    }
  }

  /** While a turn runs, game steps are the turn's decisions. */
  lemma DecisionsAreGameSteps(g: GameState, inp: Inputs, r: TurnResult)
    requires Traces(g, inp, r)
    ensures GameSteps(g, inp, r.decisions) == Some((r.state, r.rest))
  {
    forall i | 0 <= i < r.decisions
      ensures Iterate(DecisionMove, (g, inp), i).Some?
              && DecisionMove(Iterate(DecisionMove, (g, inp), i).value) == GameMove(Iterate(DecisionMove, (g, inp), i).value)
    {
      assert Steps(g, inp, i) == Iterate(DecisionMove, (g, inp), i);
      var x := Steps(g, inp, i).value;
      assert Running(x.0);
    }
    IterateAgree(DecisionMove, GameMove, (g, inp), r.decisions);
  }

  /** The turn loop's decisions are game steps. */
  lemma TurnIsGameSteps(start: GameState, inp: Inputs)
    ensures var turn := PlayTurn(start, inp);
            GameSteps(start, inp, turn.decisions) == Some((turn.state, turn.rest))
  {
    PlayTurnFollowsDecisions(start, inp);
    DecisionsAreGameSteps(start, inp, PlayTurn(start, inp));
  }

  /** A turn's decisions up to `over`, then the hand-over, then a run to the
      end from the next turn, are a run to the end. */
  lemma ComposeRun(start: GameState, inp: Inputs, d: nat, over: GameState, rest: Inputs,
                   n: nat, final: GameState, unread: Inputs)
    requires GameSteps(start, inp, d) == Some((over, rest))
    requires Between(over) && !Running(over)
    requires RunsTo(OpenTurn(over, true), rest, n, final, unread)
    ensures RunsTo(start, inp, d + 1 + n, final, unread)
  {
    assert GameMove((over, rest)) == Some((OpenTurn(over, true), rest));
    IterateCompose(GameMove, (start, inp), d, (over, rest), (OpenTurn(over, true), rest), n, (final, unread));
  }

  /** A turn that stalls or ends the game is where the run stops. */
  lemma RunStops(start: GameState, inp: Inputs, turn: TurnResult)
    requires GameSteps(start, inp, turn.decisions) == Some((turn.state, turn.rest))
    requires (Running(turn.state) && NextPlay(turn.state, turn.rest).None?) || turn.state.endGame
    ensures RunsTo(start, inp, turn.decisions, turn.state, turn.rest)
  {
  }

    /** A turn that stalls or ends the game is the whole outcome. */
  lemma TurnStops(g: GameState, inp: Inputs, nextPlayer: bool) returns (turn: TurnResult)
    requires Between(g)
    requires PlayTurn(OpenTurn(g, nextPlayer), inp).TurnStalled? || PlayTurn(OpenTurn(g, nextPlayer), inp).state.endGame
    ensures turn == PlayTurn(OpenTurn(g, nextPlayer), inp)
    ensures var r := Turn(g, inp, nextPlayer);
            r.state == turn.state && r.rest == turn.rest && r.steps == turn.decisions
  {
    turn := PlayTurn(OpenTurn(g, nextPlayer), inp);
  }

  /** A turn that hands over is followed by the rest of the game, one
      hand-over step later. */
  lemma TurnHandsOver(g: GameState, inp: Inputs, nextPlayer: bool) returns (turn: TurnResult, later: Outcome)
    requires Between(g)
    requires PlayTurn(OpenTurn(g, nextPlayer), inp).TurnOver? && !PlayTurn(OpenTurn(g, nextPlayer), inp).state.endGame
    ensures turn == PlayTurn(OpenTurn(g, nextPlayer), inp)
    ensures Between(turn.state) && !Running(turn.state) && Size(turn.rest) < Size(inp)
    ensures later == Turn(turn.state, turn.rest, true)
    ensures var r := Turn(g, inp, nextPlayer);
            r.state == later.state && r.rest == later.rest && r.steps == turn.decisions + 1 + later.steps
  {
    turn := PlayTurn(OpenTurn(g, nextPlayer), inp);
    TurnEndsBetween(turn.state);
    later := Turn(turn.state, turn.rest, true);
  }

  /** An outcome that records a run's length, state and unread input runs to them. */
  lemma OutcomeRunsTo(start: GameState, inp: Inputs, r: Outcome, n: nat, final: GameState, unread: Inputs)
    requires RunsTo(start, inp, n, final, unread)
    requires r.steps == n && r.state == final && r.rest == unread
    ensures RunsTo(start, inp, r.steps, r.state, r.rest)
  {
  }

  /** The hand-over step joins a turn's decisions to the run of the turns
      after it: an outcome `r` that adds the turn's decisions and one
      hand-over to the later run's steps runs to the same place. */
  lemma HandOverRunsTo(start: GameState, inp: Inputs, turn: TurnResult, later: Outcome, r: Outcome)
    requires GameSteps(start, inp, turn.decisions) == Some((turn.state, turn.rest))
    requires Between(turn.state) && !Running(turn.state)
    requires RunsTo(OpenTurn(turn.state, true), turn.rest, later.steps, later.state, later.rest)
    requires r.steps == turn.decisions + 1 + later.steps && r.state == later.state && r.rest == later.rest
    ensures RunsTo(start, inp, r.steps, r.state, r.rest)
  {
    ComposeRun(start, inp, turn.decisions, turn.state, turn.rest, later.steps, later.state, later.rest);
  }

  /** The game plays exactly its steps: from the opened turn, the outcome's
      state and unread input are where `steps` game steps lead, and no
      further step is possible there. No turn gains or loses anything, and
      no input is lost, between one decision and the next. */
  lemma {:induction false} TurnFollowsPlay(g: GameState, inp: Inputs, nextPlayer: bool)
    requires Between(g)
    ensures var r := Turn(g, inp, nextPlayer);
            RunsTo(OpenTurn(g, nextPlayer), inp, r.steps, r.state, r.rest)
    decreases Size(inp)
  {
    var start := OpenTurn(g, nextPlayer);
    var turn := PlayTurn(start, inp);
    TurnIsGameSteps(start, inp);
    var r := Turn(g, inp, nextPlayer);
    if turn.TurnStalled? || turn.state.endGame {
      turn := TurnStops(g, inp, nextPlayer);
      RunStops(start, inp, turn);
      OutcomeRunsTo(start, inp, r, turn.decisions, turn.state, turn.rest);
    } else {
      var later;
      turn, later := TurnHandsOver(g, inp, nextPlayer);
      TurnFollowsPlay(turn.state, turn.rest, true);
      HandOverRunsTo(start, inp, turn, later, r);
    }
  }

  /** A whole game from fresh seats is the run of game steps from the
      opening table to the first point where none can follow. */
  lemma {:induction false} GameFollowsPlay(seats: seq<Seat>, inp: Inputs)
    requires seats != []
    ensures var r := RunGame(seats, inp).value;
            RunsTo(NewGame(Roster(seats)).value, inp, r.steps, r.state, r.rest)
  {
    FreshTableBetween(seats);
    var g := NewGame(Roster(seats)).value;
    assert RunGame(seats, inp) == Some(Turn(g, inp, false));
    assert OpenTurn(g, false) == g;
    TurnFollowsPlay(g, inp, false);
  }
}

=== FILE: leaderboard.dfy ===
/** The rankings of pig.py. `Game._game_over` and `Game._accounce_winner`
    both build one three-field tuple per player and sort the tuples on their
    second field, highest first. Python's `sorted(..., reverse=True)` is
    stable, so tuples with equal keys keep the order `get_players` gave
    them. */
module Leaderboard {
  import opened PlayerState

  /** A tuple `(name, key, extra)`, ranked on `key`. A leaderboard row
      holds the total as `key` and the roll count as `extra`; an
      announcement holds the last roll as `key` and the total as `extra`. */
  datatype Entry = Entry(name: string, key: nat, extra: nat)

  /** The leaderboard row of a player: name, total score, number of rolls. */
  function StandingOf(p: Player): (e: Entry)
    ensures e.name == p.name && e.key == p.totalScore && e.extra == p.totalRolls
  {
    Entry(p.name, p.totalScore, p.totalRolls)
  }

  /** The winner-announcement tuple of a player: name, last roll, total. */
  function AnnouncementOf(p: Player): (e: Entry)
    ensures e.name == p.name && e.key == p.lastRoll && e.extra == p.totalScore
  {
    Entry(p.name, p.lastRoll, p.totalScore)
  }

  function Standings(ps: seq<Player>): (r: seq<Entry>)
    ensures |r| == |ps|
    ensures forall i :: 0 <= i < |ps| ==> r[i] == StandingOf(ps[i])
  {
    if ps == [] then [] else [StandingOf(ps[0])] + Standings(ps[1..])
  }

  function Announcements(ps: seq<Player>): (r: seq<Entry>)
    ensures |r| == |ps|
    ensures forall i :: 0 <= i < |ps| ==> r[i] == AnnouncementOf(ps[i])
  {
    if ps == [] then [] else [AnnouncementOf(ps[0])] + Announcements(ps[1..])
  }

  predicate SortedDesc(s: seq<Entry>)
  {
    forall i, j :: 0 <= i < j < |s| ==> s[i].key >= s[j].key
  }

  /** The rows of `s` whose key is `k`, in their order in `s`. */
  function WithKey(s: seq<Entry>, k: nat): seq<Entry>
  {
    if s == [] then []
    else (if s[0].key == k then [s[0]] else []) + WithKey(s[1..], k)
  }

  /** Puts `x` in front of the first row of `s` whose key is not larger. */
  function Insert(x: Entry, s: seq<Entry>): (r: seq<Entry>)
    ensures |r| == |s| + 1
    ensures multiset(r) == multiset(s) + multiset{x}
  {
    if s == [] || s[0].key <= x.key then [x] + s
    else
      assert s == [s[0]] + s[1..];
      [s[0]] + Insert(x, s[1..])
  }

  predicate AllAtMost(s: seq<Entry>, b: nat)
  {
    forall i :: 0 <= i < |s| ==> s[i].key <= b
  }

  /** Inserting a row no larger than a bound keeps every key within it. */
  lemma {:induction false} InsertBounded(x: Entry, s: seq<Entry>, b: nat)
    requires x.key <= b && AllAtMost(s, b)
    ensures AllAtMost(Insert(x, s), b)
  {
    if s != [] && s[0].key > x.key {
      InsertBounded(x, s[1..], b);
    }
  }

  lemma {:induction false} InsertSorted(x: Entry, s: seq<Entry>)
    requires SortedDesc(s)
    ensures SortedDesc(Insert(x, s))
  {
    if s != [] && s[0].key > x.key {
      var t := Insert(x, s[1..]);
      InsertSorted(x, s[1..]);
      InsertBounded(x, s[1..], s[0].key);
      var r := [s[0]] + t;
      forall i, j | 0 <= i < j < |r|
        ensures r[i].key >= r[j].key
      {
        assert r[j] == t[j - 1];
        if i > 0 {
          assert r[i] == t[i - 1];
        }
      }
    }
  }

  /** `x` lands after every row with a larger key, so among the rows with
      its key it comes first and the others keep their order. */
  lemma {:induction false} InsertStable(x: Entry, s: seq<Entry>, k: nat)
    ensures WithKey(Insert(x, s), k) == (if x.key == k then [x] else []) + WithKey(s, k)
  {
    if s == [] || s[0].key <= x.key {
      assert ([x] + s)[1..] == s;
    } else {
      var t := Insert(x, s[1..]);
      assert ([s[0]] + t)[1..] == t;
      InsertStable(x, s[1..], k);
    }
  }

  /** `sorted(rows, key=lambda row: row[1], reverse=True)`: largest key
      first, the same rows, and rows with equal keys in their original
      order. */
  function SortByKey(s: seq<Entry>): (r: seq<Entry>)
    ensures |r| == |s| && SortedDesc(r)
    ensures multiset(r) == multiset(s)
    ensures forall k: nat :: WithKey(r, k) == WithKey(s, k)
  {
    if s == [] then []
    else
      assert s == [s[0]] + s[1..];
      var t := SortByKey(s[1..]);
      InsertSorted(s[0], t);
      assert forall k: nat :: WithKey(Insert(s[0], t), k) == WithKey(s, k) by {
        forall k: nat
          ensures WithKey(Insert(s[0], t), k) == WithKey(s, k)
        {
          InsertStable(s[0], t, k);
        }
      }
      Insert(s[0], t)
  }

  /** When one row has a strictly larger key than every other, it heads
      the sorted table. */
  lemma SoleLeaderFirst(s: seq<Entry>, i: nat)
    requires i < |s|
    requires forall j :: 0 <= j < |s| && j != i ==> s[j].key < s[i].key
    ensures |SortByKey(s)| == |s| && SortByKey(s)[0] == s[i]
  {
    var r := SortByKey(s);
    assert |r| == |multiset(r)| == |multiset(s)| == |s|;
    assert s[i] in multiset(r);
    var m :| 0 <= m < |r| && r[m] == s[i];
    assert r[0].key >= s[i].key;
    assert r[0] in multiset(s);
    var j :| 0 <= j < |s| && s[j] == r[0];
  }
}

=== FILE: player.dfy ===
/** A participant: the `Player` class of pig.py and its `ComputerPlayer`
    subclass, as an immutable record plus the functions that replace its
    mutators. */
module PlayerState {
  import opened Wrappers

  /** Which `request_action` the player uses: `Player` asks a person,
      `ComputerPlayer` decides by rule. */
  datatype Kind = Human | Computer

  datatype Player = Player(
    name: string,
    kind: Kind,
    totalScore: nat,   // banked score over the whole game
    turnScore: nat,    // points at risk in the current turn
    totalRolls: nat,   // every roll the player has made
    lastRoll: nat      // 0 before the first roll, afterwards the die value
  )

  /** A total at or above this ends the game. */
  const WinningScore: nat := 100
  /** The computer never aims for more than this many points in one turn. */
  const ComputerTurnGoal: nat := 25

  /** The characters for which Python's `str.isspace` holds, the set that
      `str.strip()` removes. */
  predicate IsSpace(c: char)
  {
    || ('\t' <= c <= '\r')
    || ('\U{1C}' <= c <= ' ')
    || c == '\U{85}' || c == '\U{A0}' || c == '\U{1680}'
    || ('\U{2000}' <= c <= '\U{200A}')
    || c == '\U{2028}' || c == '\U{2029}' || c == '\U{202F}' || c == '\U{205F}'
    || c == '\U{3000}'
  }

  /** `s` without its leading whitespace. */
  function StripLeft(s: string): (r: string)
    ensures |r| <= |s| && r == s[|s| - |r|..]
    ensures forall i :: 0 <= i < |s| - |r| ==> IsSpace(s[i])
    ensures r == [] || !IsSpace(r[0])
  {
    if |s| > 0 && IsSpace(s[0]) then StripLeft(s[1..]) else s
  }

  /** `s` without its trailing whitespace. */
  function StripRight(s: string): (r: string)
    ensures |r| <= |s| && r == s[..|r|]
    ensures forall i :: |r| <= i < |s| ==> IsSpace(s[i])
    ensures r == [] || !IsSpace(r[|r| - 1])
  {
    if |s| > 0 && IsSpace(s[|s| - 1]) then StripRight(s[..|s| - 1]) else s
  }

  /** `str.strip()`: the longest stretch of `s` that neither starts nor ends
      with whitespace, with only whitespace cut away around it. */
  function Strip(s: string): (r: string)
    ensures Leading(s) + |r| <= |s| && r == s[Leading(s)..Leading(s) + |r|]
    ensures forall k :: 0 <= k < Leading(s) ==> IsSpace(s[k])
    ensures forall k :: Leading(s) + |r| <= k < |s| ==> IsSpace(s[k])
    ensures r == [] || (!IsSpace(r[0]) && !IsSpace(r[|r| - 1]))
  {
    var left := StripLeft(s);
    var r := StripRight(left);
    TrimmedSlice(s, left, r);
    r
  }

  /** Cutting whitespace from the front of `s` (leaving `left`) and then from
      the back (leaving `r`) leaves one stretch of `s` with whitespace on both
      sides of it and none at its own ends. */
  lemma TrimmedSlice(s: string, left: string, r: string)
    requires |left| <= |s| && left == s[|s| - |left|..] && (left == [] || !IsSpace(left[0]))
    requires |r| <= |left| && r == left[..|r|] && (r == [] || !IsSpace(r[|r| - 1]))
    requires forall i :: |r| <= i < |left| ==> IsSpace(left[i])
    ensures var n := |s| - |left|;
            && n + |r| <= |s| && r == s[n..n + |r|]
            && (forall k :: n + |r| <= k < |s| ==> IsSpace(s[k]))
            && (r == [] || (!IsSpace(r[0]) && !IsSpace(r[|r| - 1])))
  {
    var n := |s| - |left|;
    forall k | n + |r| <= k < |s|
      ensures IsSpace(s[k])
    {
      assert s[k] == left[k - n];
    }
    if r != [] {
      assert r[0] == left[0];
    }
  }

  /** How many characters `str.strip()` cuts from the front of `s`. */
  function Leading(s: string): nat
  {
    |s| - |StripLeft(s)|
  }

  /** Stripping twice changes nothing more than stripping once. */
  lemma StripIdempotent(s: string)
    ensures Strip(Strip(s)) == Strip(s)
  {
    var r := Strip(s);
    if r != [] {
      assert StripLeft(r) == r;
      assert StripRight(r) == r;
    }
  }

  /** The constructor: the name is stripped and every counter starts at 0. */
  function NewPlayer(name: string, kind: Kind): (p: Player)
    ensures p.kind == kind && p.name == Strip(name)
    ensures p.name == [] || (!IsSpace(p.name[0]) && !IsSpace(p.name[|p.name| - 1]))
    ensures p.totalScore == p.turnScore == p.totalRolls == p.lastRoll == 0
  {
    Player(Strip(name), kind, 0, 0, 0, 0)
  }

  // The mutators of `Player`; each returns the player with one field changed.

  /** `update_total_rolls` */
  function UpdateTotalRolls(p: Player): (q: Player)
    ensures q.totalRolls == p.totalRolls + 1 && q == p.(totalRolls := q.totalRolls)
  {
    p.(totalRolls := p.totalRolls + 1)
  }

  /** `update_turn_score` */
  function UpdateTurnScore(p: Player, score: nat): (q: Player)
    ensures q.turnScore == p.turnScore + score && q == p.(turnScore := q.turnScore)
  {
    p.(turnScore := p.turnScore + score)
  }

  /** `update_last_roll` */
  function UpdateLastRoll(p: Player, roll: nat): (q: Player)
    ensures q.lastRoll == roll && q == p.(lastRoll := q.lastRoll)
  {
    p.(lastRoll := roll)
  }

  /** `reset_turn_stats` */
  function ResetTurnStats(p: Player): (q: Player)
    ensures q.turnScore == 0 && q == p.(turnScore := 0)
  {
    p.(turnScore := 0)
  }

  /** `commit_score`: banks the turn score but does not clear it. */
  function CommitScore(p: Player): (q: Player)
    ensures q.totalScore == p.totalScore + p.turnScore && q == p.(totalScore := q.totalScore)
  {
    p.(totalScore := p.totalScore + p.turnScore)
  }

  /** Banking and then clearing moves the points at risk into the total;
      clearing first, as the bust path does, banks nothing. */
  lemma CommitOrder(p: Player)
    ensures ResetTurnStats(CommitScore(p)).totalScore == p.totalScore + p.turnScore
    ensures CommitScore(ResetTurnStats(p)).totalScore == p.totalScore
    ensures ResetTurnStats(CommitScore(p)).turnScore == CommitScore(ResetTurnStats(p)).turnScore == 0
  {
  }

  function Min(a: int, b: int): int
  {
    if a <= b then a else b
  }

  /** `ComputerPlayer.request_action`: keep rolling while the turn score is
      below both the turn goal and the points still missing to win. Rolling
      happens exactly while the turn score is under 25 and the total plus
      twice the turn score is under 100. */
  function ComputerAction(p: Player): (a: string)
    ensures a == "r" || a == "h"
    ensures a == "r" <==> p.turnScore < ComputerTurnGoal && p.totalScore + 2 * p.turnScore < WinningScore
  {
    if p.turnScore < Min(ComputerTurnGoal, WinningScore - (p.totalScore + p.turnScore)) then "r" else "h"
  }

  /** `request_action` for either kind. A person's answer is the next token
      of their input, which may be anything; with no input left there is no
      answer. The computer reads no input. Returns the action and the
      tokens left over. */
  function RequestAction(p: Player, tokens: seq<string>): (r: Option<(string, seq<string>)>)
    ensures p.kind == Computer ==> r == Some((ComputerAction(p), tokens))
    ensures p.kind == Human ==> (r.None? <==> tokens == [])
    ensures p.kind == Human && r.Some? ==> [r.value.0] + r.value.1 == tokens
  {
    match p.kind
    case Computer => Some((ComputerAction(p), tokens))
    case Human => if tokens == [] then None else Some((tokens[0], tokens[1..]))
  }
}

=== FILE: rotation.dfy ===
/** Turn ownership: the `Players` class of pig.py, a FIFO queue of waiting
    players with the current player held outside the queue. */
module Rotation {
  import opened Wrappers

  /** `queue[0]` is the head that the next `get` returns; `current` is not
      in the queue while it is current. */
  datatype Players<T> = Players(queue: seq<T>, current: T)

  /** The whole table in seating order: the waiting players in queue order,
      then the current one (`get_players`). */
  function Members<T>(ps: Players<T>): seq<T>
  {
    ps.queue + [ps.current]
  }

  /** `get_players` lists the waiting players in queue order and then the
      current player: everyone at the table once, the current one last. */
  lemma MembersListsTable<T>(ps: Players<T>)
    ensures |Members(ps)| == |ps.queue| + 1 && Members(ps)[|ps.queue|] == ps.current
    ensures Members(ps)[..|ps.queue|] == ps.queue
    ensures multiset(Members(ps)) == multiset(ps.queue) + multiset{ps.current}
  {
  }

  /** `line` turned left by `k` places, `k` at most one full turn. */
  function Rotate<T>(line: seq<T>, k: nat): seq<T>
    requires k <= |line|
  {
    line[k..] + line[..k]
  }

  /** The constructor: the head of the queue becomes current. `Queue.get` on
      an empty queue waits forever, so an empty queue yields no rotation. */
  function FromQueue<T>(q: seq<T>): (r: Option<Players<T>>)
    ensures r.None? <==> q == []
    ensures r.Some? ==> r.value.current == q[0] && Members(r.value) == Rotate(q, 1)
  {
    if q == [] then None else Some(Players(q[1..], q[0]))
  }

  /** `get_next_player`: the current player goes to the tail of the queue and
      the head becomes current. */
  function Advance<T>(ps: Players<T>): (r: Players<T>)
    ensures r.current == Members(ps)[0]
    ensures Members(r) == Rotate(Members(ps), 1)
  {
    var line := ps.queue + [ps.current];
    Players(line[1..], line[0])
  }

  /** `n` calls of `get_next_player` in a row. */
  function AdvanceN<T>(ps: Players<T>, n: nat): Players<T>
    decreases n
  {
    if n == 0 then ps else Advance(AdvanceN(ps, n - 1))
  }

  /** Element `i` of a rotation by `k` is element `i + k` of the line,
      wrapping round at the end. */
  lemma RotateIndex<T>(line: seq<T>, k: nat, i: nat)
    requires k <= |line| && i < |line|
    ensures i + k < |line| ==> Rotate(line, k)[i] == line[i + k]
    ensures i + k >= |line| ==> Rotate(line, k)[i] == line[i + k - |line|]
  {
  }

  /** One more place after a rotation by `k` is a rotation by `k + 1`. */
  lemma RotateStep<T>(line: seq<T>, k: nat)
    requires k < |line|
    ensures Rotate(Rotate(line, k), 1) == Rotate(line, k + 1)
  {
    var n := |line|;
    var a := Rotate(Rotate(line, k), 1);
    var b := Rotate(line, k + 1);
    forall i | 0 <= i < n
      ensures a[i] == b[i]
    {
      RotateIndex(line, k + 1, i);
      RotateIndex(Rotate(line, k), 1, i);
      if i + 1 < n {
        RotateIndex(line, k, i + 1);
      } else {
        RotateIndex(line, k, 0);
      }
    }
  }

  /** Two rotations in a row are one rotation by the sum, less a full turn
      when the sum passes one. */
  lemma RotateAdd<T>(line: seq<T>, j: nat, k: nat)
    requires j <= |line| && k <= |line|
    ensures j + k <= |line| ==> Rotate(Rotate(line, j), k) == Rotate(line, j + k)
    ensures j + k > |line| ==> Rotate(Rotate(line, j), k) == Rotate(line, j + k - |line|)
  {
    var n := |line|;
    var m := if j + k <= n then j + k else j + k - n;
    var a := Rotate(Rotate(line, j), k);
    forall i | 0 <= i < n
      ensures a[i] == Rotate(line, m)[i]
    {
      RotateIndex(Rotate(line, j), k, i);
      RotateIndex(line, m, i);
      if i + k < n {
        RotateIndex(line, j, i + k);
      } else {
        RotateIndex(line, j, i + k - n);
      }
    }
  }

  /** A full turn, like no turn, leaves the line as it was. */
  lemma RotateFull<T>(line: seq<T>)
    ensures Rotate(line, |line|) == line && Rotate(line, 0) == line
  {
    assert line[|line|..] == [] && line[..|line|] == line;
    assert line[0..] == line && line[..0] == [];
  }

  /** A rotation neither loses nor duplicates anyone. */
  lemma RotatePermutes<T>(line: seq<T>, k: nat)
    requires k <= |line|
    ensures multiset(Rotate(line, k)) == multiset(line)
  {
    assert line == line[..k] + line[k..];
  }

  /** The rotation is recovered from its members: the last one is current
      and the rest are the queue in order. */
  lemma MembersDetermine<T>(a: Players<T>, b: Players<T>)
    requires Members(a) == Members(b)
    ensures a == b
  {
    assert a.queue == Members(a)[..|Members(a)| - 1];
    assert b.queue == Members(b)[..|Members(b)| - 1];
  }

  /** After `n` advances, `n` at most one full cycle, the table is the
      original seating turned by `n`. */
  lemma {:induction false} AdvanceNRotates<T>(ps: Players<T>, n: nat)
    requires n <= |Members(ps)|
    ensures Members(AdvanceN(ps, n)) == Rotate(Members(ps), n)
    decreases n
  {
    if n == 0 {
      RotateFull(Members(ps));
    } else {
      AdvanceNRotates(ps, n - 1);
      RotateStep(Members(ps), n - 1);
    }
  }

  /** A full cycle of `get_next_player` calls ends in exactly the starting
      rotation. */
  lemma FullCycle<T>(ps: Players<T>)
    ensures AdvanceN(ps, |Members(ps)|) == ps
  {
    AdvanceNRotates(ps, |Members(ps)|);
    RotateFull(Members(ps));
    MembersDetermine(AdvanceN(ps, |Members(ps)|), ps);
  }

  /** Round-robin fairness: over one full cycle each seat becomes current
      once, in seating order. */
  lemma CycleVisitsInOrder<T>(ps: Players<T>, n: nat)
    requires 1 <= n <= |Members(ps)|
    ensures AdvanceN(ps, n).current == Members(ps)[n - 1]
  {
    var line := Members(ps);
    var a := AdvanceN(ps, n);
    AdvanceNRotates(ps, n);
    RotateIndex(line, n, |line| - 1);
    assert a.current == Members(a)[|line| - 1];
  }

  /** `a` advances and then `b` more are `a + b` advances. */
  lemma {:induction false} AdvanceNAdd<T>(ps: Players<T>, a: nat, b: nat)
    ensures AdvanceN(ps, a + b) == AdvanceN(AdvanceN(ps, a), b)
    decreases b
  {
    if b > 0 {
      AdvanceNAdd(ps, a, b - 1);
    }
  }

  /** The rotation repeats with the size of the table as its period: any
      number of advances lands where fewer than one cycle of them does. */
  lemma {:induction false} AdvanceNPeriodic<T>(ps: Players<T>, n: nat) returns (k: nat)
    ensures k < |Members(ps)| && AdvanceN(ps, n) == AdvanceN(ps, k)
    decreases n
  {
    var size := |Members(ps)|;
    if n < size {
      k := n;
    } else {
      AdvanceNAdd(ps, size, n - size);
      FullCycle(ps);
      k := AdvanceNPeriodic(ps, n - size);
    }
  }

  /** `get_players` lists every player exactly once however many times
      `get_next_player` was called. */
  lemma AdvanceNKeepsPlayers<T>(ps: Players<T>, n: nat)
    ensures multiset(Members(AdvanceN(ps, n))) == multiset(Members(ps))
  {
    var k := AdvanceNPeriodic(ps, n);
    AdvanceNRotates(ps, k);
    RotatePermutes(Members(ps), k);
  }
}

=== FILE: step.dfy ===
/** One decision of a turn: `Game._play` of pig.py, with the game state it
    changes and the invariant every reachable state keeps. */
module Step {
  import opened Wrappers
  import opened PlayerState
  import opened Rotation

  /** A face of the die (`random.randint(1, 6)`). */
  type DieValue = x: int | 1 <= x <= 6 witness 1

  /** Rolling this loses the points at risk and ends the turn. */
  const BustRoll: DieValue := 1

  /** The fields of `Game`: the rotation and the two status flags. */
  datatype GameState = GameState(players: Players<Player>, activeTurn: bool, endGame: bool)

  /** What the outside world supplies: the answers people type, in order, and
      the die values, in order. Each is read only when it is needed. */
  datatype Inputs = Inputs(actions: seq<string>, rolls: seq<DieValue>)

  function Size(inp: Inputs): nat
  {
    |inp.actions| + |inp.rolls|
  }

  /** `rest` is what is left of `inp` once some of each stream was read. */
  predicate Remains(rest: Inputs, inp: Inputs)
  {
    && |rest.actions| <= |inp.actions| && rest.actions == inp.actions[|inp.actions| - |rest.actions|..]
    && |rest.rolls| <= |inp.rolls| && rest.rolls == inp.rolls[|inp.rolls| - |rest.rolls|..]
  }

  /** What is left after reading from what was left is what is left of the
      original. */
  lemma RemainsTransitive(c: Inputs, b: Inputs, a: Inputs)
    requires Remains(c, b) && Remains(b, a)
    ensures Remains(c, a)
  {
  }

  /** `q` is the same player as `p` at a later moment: same name and kind,
      and neither the total nor the roll count went down. */
  predicate Later(p: Player, q: Player)
  {
    q.name == p.name && q.kind == p.kind && p.totalScore <= q.totalScore && p.totalRolls <= q.totalRolls
  }

  /** Seat by seat, `b` is a later moment of `a`. */
  predicate Progressed(a: seq<Player>, b: seq<Player>)
  {
    |a| == |b| && forall i :: 0 <= i < |a| ==> Later(a[i], b[i])
  }

  /** The invariant of every reachable game state. Waiting players have no
      points at risk and have not won. While the game runs, the current
      player has not reached 100 even counting the points at risk, and has
      none at risk between turns. Once it has ended, the current player is
      the one who reached 100, with the turn closed. */
  predicate Valid(g: GameState)
  {
    && (forall i :: 0 <= i < |g.players.queue| ==>
          g.players.queue[i].turnScore == 0 && g.players.queue[i].totalScore < WinningScore)
    && var p := g.players.current;
       if g.endGame then WinningScore <= p.totalScore && p.turnScore == 0 && !g.activeTurn
       else p.totalScore + p.turnScore < WinningScore && (!g.activeTurn ==> p.turnScore == 0)
  }

  /** `Game._play` for the current player, given the action it chose and the
      value the die shows if that action is a roll ("r"). */
  function Play(g: GameState, action: string, roll: DieValue): (r: GameState)
    // only the current player changes, and it stays the same player
    ensures r.players.queue == g.players.queue
    ensures Later(g.players.current, r.players.current)
    // a 1: one more roll, the points at risk are lost, the total stays, the turn ends
    ensures action == "r" && roll == BustRoll ==>
              var p, q := g.players.current, r.players.current;
              && q.totalRolls == p.totalRolls + 1 && q.lastRoll == 1
              && q.turnScore == 0 && q.totalScore == p.totalScore
              && !r.activeTurn && r.endGame == g.endGame
    // 2 to 6 short of 100: the roll is added to the points at risk and the turn goes on
    ensures action == "r" && roll != BustRoll
            && g.players.current.totalScore + g.players.current.turnScore + roll < WinningScore ==>
              var p, q := g.players.current, r.players.current;
              && q.totalRolls == p.totalRolls + 1 && q.lastRoll == roll
              && q.turnScore == p.turnScore + roll && q.totalScore == p.totalScore
              && r.activeTurn == g.activeTurn && r.endGame == g.endGame
    // 2 to 6 reaching 100: everything is banked and the game ends
    ensures action == "r" && roll != BustRoll
            && g.players.current.totalScore + g.players.current.turnScore + roll >= WinningScore ==>
              var p, q := g.players.current, r.players.current;
              && q.totalRolls == p.totalRolls + 1 && q.lastRoll == roll
              && q.totalScore == p.totalScore + p.turnScore + roll && q.turnScore == 0
              && r.endGame && !r.activeTurn
    // hold: the points at risk are banked and the turn ends; no roll is made
    ensures action == "h" ==>
              var p, q := g.players.current, r.players.current;
              && q.totalScore == p.totalScore + p.turnScore && q.turnScore == 0
              && q.totalRolls == p.totalRolls && q.lastRoll == p.lastRoll
              && !r.activeTurn && r.endGame == g.endGame
    // anything else: nothing changes and the same player is asked again
    ensures action != "r" && action != "h" ==> r == g
    // a running turn never leaves a reachable state
    ensures Valid(g) && g.activeTurn && !g.endGame ==> Valid(r)
  {
    var p := g.players.current;
    if action == "r" then
      var rolled := UpdateLastRoll(UpdateTotalRolls(p), roll);
      if roll == BustRoll then
        g.(players := g.players.(current := CommitScore(ResetTurnStats(rolled))), activeTurn := false)
      else
        var ahead := UpdateTurnScore(rolled, roll);
        if ahead.turnScore + ahead.totalScore >= WinningScore then
          g.(players := g.players.(current := ResetTurnStats(CommitScore(ahead))),
             endGame := true, activeTurn := false)
        else
          g.(players := g.players.(current := ahead))
    else if action == "h" then
      g.(players := g.players.(current := ResetTurnStats(CommitScore(p))), activeTurn := false)
    else
      g
  }

  /** The decision `p` is about to make reads input: a person always types an
      answer, and the computer reads a die value unless it holds. */
  predicate ReadsInput(p: Player)
  {
    p.kind == Human || ComputerAction(p) == "r"
  }

  /** One pass of the turn loop with its inputs: ask the current player for
      an action, draw a die value if it rolls, and play. None when the input
      the decision needs has run out. */
  function NextPlay(g: GameState, inp: Inputs): (r: Option<(GameState, Inputs)>)
    // no decision only when a person has no answer left, or the answer is
    // a roll and no die value is left
    ensures r.None? <==>
              || (g.players.current.kind == Human && inp.actions == [])
              || (inp.rolls == [] && RequestAction(g.players.current, inp.actions).Some?
                  && RequestAction(g.players.current, inp.actions).value.0 == "r")
    // otherwise the answer read is played, with the next die value when it
    // is a roll; the answer's token, if any, and only that die value are used up
    ensures r.Some? ==>
              var (a, tokens) := RequestAction(g.players.current, inp.actions).value;
              && r.value.0 == Play(g, a, if a == "r" then inp.rolls[0] else BustRoll)
              && r.value.1 == Inputs(tokens, if a == "r" then inp.rolls[1..] else inp.rolls)
    ensures r.Some? ==> Remains(r.value.1, inp)
    // a decision reads some input, unless it is the computer holding,
    // which ends the turn
    ensures r.Some? ==> Size(r.value.1) < Size(inp) || !r.value.0.activeTurn
    ensures r.Some? && ReadsInput(g.players.current) ==> Size(r.value.1) < Size(inp)
    ensures r.Some? ==> r.value.0.players.queue == g.players.queue
    ensures r.Some? ==> Later(g.players.current, r.value.0.players.current)
    ensures r.Some? && Valid(g) && g.activeTurn && !g.endGame ==> Valid(r.value.0)
  {
    var request := RequestAction(g.players.current, inp.actions);
    if request.None? then None
    else
      var action := request.value.0;
      if action == "r" && inp.rolls == [] then None
      else
        var roll := if action == "r" then inp.rolls[0] else BustRoll;
        var rest := Inputs(request.value.1, if action == "r" then inp.rolls[1..] else inp.rolls);
        Some((Play(g, action, roll), rest))
  }
}

=== FILE: wrappers.dfy ===
/** The optional value used wherever the game can have no answer. */
module Wrappers {

  datatype Option<+T> = None | Some(value: T)
}
